=== FILE: README.md ===
# Voice assistant and tubelight navigation bar, as Dafny state machines

This project models the two pieces of sequential logic in the happy-days-helper
front end:

- **The voice assistant** (`VoiceAssistant`). A transcript is lower-cased and
  tested against four keyword groups in a fixed priority order. The groups are
  medicine/pill, appointment/doctor, family/call and help. The first group that
  matches picks the one phrase that is spoken. A transcript that matches no
  group produces no speech. Around this dispatcher sits a session state machine:
  - the state is the `enabled` prop, browser support for recognition and
    synthesis, the listening flag and the last final transcript;
  - the effect on `[isListening, enabled]` builds, configures, starts and stops
    recognizers;
  - the result handler stores and dispatches final results only;
  - the error handler stops listening;
  - `toggleListening` flips the flag and announces the new state.
- **The navigation bar** (`NavBar`). It tracks the active tab, whether the
  layout is mobile and whether the bar has mounted. Items are `{name, isActive}`
  records. The active tab is chosen on first render and re-synchronised when
  the items change. A click selects a tab. An item is highlighted when its name
  equals the active tab.

Modules:

| file | module | models |
|---|---|---|
| `wrappers.dfy` | `Wrappers` | `Option` and `Result`, used for "nothing" and for handlers that throw |
| `text.dfy` | `Text` | `toLowerCase` over ASCII and `includes` as substring occurrence |
| `dispatcher.dfy` | `Dispatcher` | `handleVoiceCommand` |
| `voice.dfy` | `Voice` | the voice assistant's state, effect, handlers and event runs |
| `navbar.dfy` | `NavBar` | the navigation bar's selection state and event runs |

Platform pieces become plain inputs:
- The recognition constructor (standard or webkit-prefixed) is the boolean `supported`.
- `'speechSynthesis' in window` is the boolean `synthesisAvailable`.
- Speech output is the phrase returned as `Option<string>`.
- A recognizer is a record of its three settings plus whether `start()` was called.
- A result event is a sequence of `{isFinal, alternatives}`.
- The window width is an integer argument.
- Each navigation item's `onClick` is opaque and is reported by its index.

Some of the component's behaviour is easy to misread; the model follows the code:
- `handleVoiceCommand` calls no navigation callback. The spoken phrase is its
  only output.
- Interim (non-final) results leave `transcript` untouched.
- `toggleListening` flips the flag even when no recognizer exists, so
  "listening implies supported" does not hold (`Voice.ListeningWithoutRecognizer`).
- Errors are not retried.
- `stop()` in the effect's cleanup leaves `onresult` and `onerror` attached, and a
  stopped recognizer may still report audio it had already captured. The model
  keeps the last started recognizer a cleanup stopped (`draining`) and lets it
  deliver late events. A late final result is stored and dispatched although
  nothing is listening (`Voice.LateResultStillDispatched`). A late error ends a
  session started after it (`Voice.LateErrorStopsNewSession`).

The result handler throws in two cases. These are modelled as `Failure`, with
the state left as it was:
- `latest.isFinal` throws on an empty result list, where `latest` is `undefined`.
- `latest[0].transcript` throws on a final result with no alternatives.

The navigation bar reads `items[0].name` on every render when there is no active
item or the first active item's name is empty. That throws on an empty list, so
the navigation bar members require a non-empty item list.

## Model

| member | source | states |
|---|---|---|
| Text.ToLower | src/components/VoiceAssistant.tsx:102 | the lower-cased command has the same length, maps each character through ASCII lower-casing, and contains no upper-case ASCII letter |
| Text.ToLowerIdempotent | src/components/VoiceAssistant.tsx:102 | lower-casing an already lower-cased command changes nothing |
| Text.Includes | src/components/VoiceAssistant.tsx:104-110 | `includes` is true exactly when the keyword occurs as a contiguous substring at some position |
| Text.IncludesIgnoringCase | src/components/VoiceAssistant.tsx:102-110 | searching the lower-cased command for a lower-case keyword finds exactly the case-insensitive occurrences of the keyword in the original command |
| Dispatcher.Classify | src/components/VoiceAssistant.tsx:101-113 | the chosen intent is mentioned (unless it is NoMatch) and no intent of higher priority is mentioned: first match wins |
| Dispatcher.Reply | src/components/VoiceAssistant.tsx:104-112 | every intent except NoMatch has a phrase; NoMatch has none |
| Dispatcher.ReplyInjective | src/components/VoiceAssistant.tsx:104-111 | the four phrases are distinct, so the spoken phrase identifies the intent |
| Dispatcher.Respond | src/components/VoiceAssistant.tsx:101-113 | medicine/pill always gives the medicine phrase; appointment/doctor gives the appointments phrase exactly when no medicine keyword is present; family/call gives the family phrase exactly when neither earlier group matches; help gives the help message exactly when none of the three earlier groups match; silence exactly when no group matches |
| Dispatcher.ClassifyIsFirstMentioned | src/components/VoiceAssistant.tsx:104-113 | the if/else-if chain equals a first-match walk over the priority list medicine, appointments, family, help |
| Dispatcher.MedicineWins | src/components/VoiceAssistant.tsx:104-105 | any command whose lower-cased form contains "medicine" or "pill" yields exactly "Opening medicine reminders", whatever else it contains |
| Dispatcher.MedicineAnywhere | src/components/VoiceAssistant.tsx:102-105 | "medicine" in any letter case, with any text before and after it, yields the medicine phrase |
| Dispatcher.RespondIgnoresCase | src/components/VoiceAssistant.tsx:102 | two commands equal up to ASCII case get the same reply |
| Dispatcher.RespondOfLowered | src/components/VoiceAssistant.tsx:102 | dispatching the lower-cased command gives the same reply as dispatching the command |
| Dispatcher.MentionsIgnoringCase | src/components/VoiceAssistant.tsx:102-110 | a keyword spelled in any mix of cases anywhere in the command counts as a mention of its group |
| Dispatcher.SilentWithoutKeywords | src/components/VoiceAssistant.tsx:101-113 | a command in which none of the seven keywords occurs, in any case, produces no speech |
| Voice.Initial | src/components/VoiceAssistant.tsx:57-58 | the component starts not listening, with an empty transcript |
| Voice.Speak | src/components/VoiceAssistant.tsx:115-122 | a phrase is uttered exactly when synthesis is available and there is a phrase, and then it is that phrase |
| Voice.RunEffect | src/components/VoiceAssistant.tsx:60-99 | the previous run's recognizer is stopped; disabled forces not-listening and builds nothing; unsupported builds nothing; otherwise a recognizer is built with continuous, interim results and "en-US"; it is started exactly when enabled, supported and listening; the transcript is untouched |
| Voice.OnResult | src/components/VoiceAssistant.tsx:80-86 | only the last result is inspected; a non-final one leaves the state unchanged and dispatches nothing; a final one makes its first alternative the transcript and dispatches that exact string once; an empty list or a final result without alternatives throws |
| Voice.OnlyLatestResultCounts | src/components/VoiceAssistant.tsx:81 | results before the last one never affect the handler |
| Voice.OnError | src/components/VoiceAssistant.tsx:88-91 | a recognition error sets listening to false and changes nothing else |
| Voice.Toggle | src/components/VoiceAssistant.tsx:124-131 | the listening flag flips, nothing else in the state changes, and the state being entered is announced |
| Voice.ToggleTwice | src/components/VoiceAssistant.tsx:124-131 | two toggles restore the state, transcript included; "now listening" is said iff the flag was false and "stopped" iff it was true |
| Voice.Settle | src/components/VoiceAssistant.tsx:60-99 | the effect re-runs only when `isListening` or `enabled` changed; when it does, a configured recognizer exists exactly when enabled in a supporting browser, it is capturing exactly when also listening, a recognizer that was capturing is kept as the stopped one that may still deliver events, and otherwise the earlier stopped recognizer stays, and the effect settles on a state whose dependencies one more run would not change, so React stops re-running it |
| Voice.Mount | src/components/VoiceAssistant.tsx:57-99 | after mounting, the controller invariant holds and no recognizer has been started |
| Voice.Step | src/components/VoiceAssistant.tsx:60-140 | each event keeps the controller invariant; a dispatch happens only on a result event, from the started recognizer or late from the last stopped one; disabling stops listening and releases the recognizer; only result events change the transcript; an unsupported browser never gets a recognizer |
| Voice.RunPreservesWellFormed | src/components/VoiceAssistant.tsx:60-99 | after any event sequence a recognizer is started only while enabled, supported and listening, and is always configured |
| Voice.UnsupportedNeverRecognizes | src/components/VoiceAssistant.tsx:66-71 | without a recognition constructor no recognizer is ever built, nothing is dispatched and the transcript never changes |
| Voice.InterimResultsAreIgnored | src/components/VoiceAssistant.tsx:80-86 | result events whose last result is not final change nothing, dispatch nothing and say nothing |
| Voice.SingleFinalDispatchedOnce | src/components/VoiceAssistant.tsx:80-86 | interim results followed by one final result give exactly one dispatch, of the final transcript, which becomes the stored transcript |
| Voice.PressTwiceRestores | src/components/VoiceAssistant.tsx:124-131 | pressing the button twice restores the state, transcript included; in between, a recognizer is capturing iff the browser supports it and the component was not listening; the two announcements are the new state and then the old one |
| Voice.LateResultStillDispatched | src/components/VoiceAssistant.tsx:80-97 | after the microphone is switched off, or after an error, a late final result from the stopped recognizer still becomes the transcript and is dispatched, although nothing is capturing |
| Voice.LateErrorStopsNewSession | src/components/VoiceAssistant.tsx:88-97 | a late error from a stopped recognizer switches off a session that was started after it |
| Voice.ListeningWithoutRecognizer | src/components/VoiceAssistant.tsx:66-71 | in an unsupported browser the button still switches to listening, with no recognizer |
| NavBar.FindActive | src/components/ui/tubelight-navbar.tsx:38 | `find` returns the first item flagged active, or nothing when no item is active |
| NavBar.InitialTab | src/components/ui/tubelight-navbar.tsx:24 | the initial tab is the first active item's name when that item exists and its name is non-empty; otherwise it is the first item's name |
| NavBar.Resize | src/components/ui/tubelight-navbar.tsx:28-30 | `isMobile` holds iff the width is below 768, and nothing else changes |
| NavBar.SyncItems | src/components/ui/tubelight-navbar.tsx:37-42 | with an active item, the active tab becomes the first active item's name, even an empty one; with none, the state is unchanged; only the active tab can change |
| NavBar.Click | src/components/ui/tubelight-navbar.tsx:71-74 | clicking item i sets the active tab to its name, so item i and exactly the items sharing its name are highlighted; then item i's callback runs; nothing else changes |
| NavBar.Render | src/components/ui/tubelight-navbar.tsx:52-66 | nothing is drawn before mounting; afterwards each item is highlighted iff its name equals the active tab |
| NavBar.SameNameSameHighlight | src/components/ui/tubelight-navbar.tsx:66 | items sharing a name are always highlighted together |
| NavBar.Mount | src/components/ui/tubelight-navbar.tsx:24-50 | after mounting, the bar is mounted, `isMobile` reflects the width, and the active tab is the first active item's name (even an empty one) or, with no active item, the first item's name |
| NavBar.FallbackOverwrittenOnMount | src/components/ui/tubelight-navbar.tsx:24-42 | with an active item named "" and a first item "Home", the initial tab is "Home", but after mounting it is "" |
| NavBar.Step | src/components/ui/tubelight-navbar.tsx:27-74 | each event keeps the item list non-empty and leaves `mounted` as it was; only resizes change `isMobile`; only item changes and clicks on a mounted bar change the active tab, since nothing, and so no button, is drawn before mounting |
| NavBar.MountedForever | src/components/ui/tubelight-navbar.tsx:45-54 | once mounted the bar stays mounted and keeps rendering through any event sequence, so `mounted` only goes from false to true |
| NavBar.ResizesKeepSelection | src/components/ui/tubelight-navbar.tsx:27-35 | any number of resizes leaves the active tab and the items unchanged |

## Left out

- Markup, styling, icons, the `Card`/`Button` components, the framer-motion lamp animation and the theme toggle (`useTheme`, `MinimalToggle`): presentation only, with no logic of their own.
- `SpeechSynthesisUtterance` and its rate 0.8 and pitch 1.0: floating-point audio settings. Speech is the uttered phrase.
- The recognition `confidence` value, the `resultIndex` field, the error event's code and message, and the `console` diagnostics: the code never reads the first two, and logging has no effect on the state.
- React's render and effect scheduling: every handler is one atomic transition. The effect runs right after the render whose dependencies changed. A cleanup runs right before the next run of its effect.
- The recognizer's `end` event is not modelled: the last stopped recognizer may deliver late events until a later cleanup stops another started one. This allows more late events than a browser would send.
- Unmounting: it runs the same cleanup as the next effect run, which `Voice.RunEffect` reports as the stopped recognizer. The navigation bar's resize listener removal has no state effect.
- NavBar.InitialTab, NavBar.Mount, NavBar.Step and NavBar.Run: require a non-empty item list. With an empty list every render throws a TypeError at `items[0].name`, so that case is excluded instead of modelled.
- Text.ToLower: lower-cases ASCII letters only, because `toLowerCase` applies the full Unicode case mapping, which is not modelled.
- Concrete scenario sentences for the family and help groups are not stated as separate lemmas. Showing that a literal sentence lacks the other keywords means evaluating substring search on the literal. `Dispatcher.Respond` covers these cases for all transcripts.

=== FILE: dispatcher.dfy ===
/** The voice assistant's command dispatcher (`handleVoiceCommand`): a transcript is
    lower-cased and tested against four keyword groups in a fixed priority order;
    the first group that matches picks the one phrase that is spoken, and a
    transcript that matches no group produces no speech at all. The component
    calls no navigation callback, so the phrase is the dispatcher's only output. */
module Dispatcher {
  import opened Wrappers
  import opened Text

  /** What a transcript asks for; `NoMatch` is the silent outcome. */
  datatype Intent = OpenMedicine | OpenAppointments | OpenFamily | Help | NoMatch

  const MedicinePhrase := "Opening medicine reminders"
  const AppointmentsPhrase := "Opening appointments"
  const FamilyPhrase := "Opening family contacts"
  const HelpPhrase := "You can say: medicine, appointments, family, or emergency"

  /** The keywords that select an intent. */
  function Keywords(intent: Intent): seq<string> {
    match intent
    case OpenMedicine => ["medicine", "pill"]
    case OpenAppointments => ["appointment", "doctor"]
    case OpenFamily => ["family", "call"]
    case Help => ["help"]
    case NoMatch => []
  }

  /** Position of an intent in the order the groups are tested; `NoMatch` comes last. */
  function Rank(intent: Intent): nat {
    match intent
    case OpenMedicine => 0
    case OpenAppointments => 1
    case OpenFamily => 2
    case Help => 3
    case NoMatch => 4
  }

  /** The transcript contains, ignoring ASCII case, one of the intent's keywords. */
  predicate Mentions(command: string, intent: Intent) {
    exists k :: k in Keywords(intent) && Includes(ToLower(command), k)
  }

  /** The intent `handleVoiceCommand` acts on: the highest-priority group the
      transcript mentions, `NoMatch` when it mentions none. */
  function Classify(command: string): (intent: Intent)
    ensures intent != NoMatch ==> Mentions(command, intent)
    ensures forall other :: Rank(other) < Rank(intent) ==> !Mentions(command, other)
  {
    var lower := ToLower(command);
    if Includes(lower, "medicine") || Includes(lower, "pill") then
      OpenMedicine
    else if Includes(lower, "appointment") || Includes(lower, "doctor") then
      OpenAppointments
    else if Includes(lower, "family") || Includes(lower, "call") then
      OpenFamily
    else if Includes(lower, "help") then
      Help
    else
      NoMatch
  }

  /** The fixed confirmation phrase of each intent; `NoMatch` says nothing. */
  function Reply(intent: Intent): (phrase: Option<string>)
    ensures phrase.None? <==> intent == NoMatch
  {
    match intent
    case OpenMedicine => Some(MedicinePhrase)
    case OpenAppointments => Some(AppointmentsPhrase)
    case OpenFamily => Some(FamilyPhrase)
    case Help => Some(HelpPhrase)
    case NoMatch => None
  }

  /** Distinct intents speak distinct phrases, so the phrase identifies the intent. */
  lemma ReplyInjective(a: Intent, b: Intent)
    requires Reply(a) == Reply(b)
    ensures a == b
  {
  }

  /** `handleVoiceCommand`: the phrase handed to `speak`, if any (at most one per transcript). */
  function Respond(command: string): (phrase: Option<string>)
    ensures phrase == Some(MedicinePhrase) <==> Mentions(command, OpenMedicine)
    ensures phrase == Some(AppointmentsPhrase) <==>
              !Mentions(command, OpenMedicine) && Mentions(command, OpenAppointments)
    ensures phrase == Some(FamilyPhrase) <==>
              !Mentions(command, OpenMedicine) && !Mentions(command, OpenAppointments)
              && Mentions(command, OpenFamily)
    ensures phrase == Some(HelpPhrase) <==>
              !Mentions(command, OpenMedicine) && !Mentions(command, OpenAppointments)
              && !Mentions(command, OpenFamily) && Mentions(command, Help)
    ensures phrase.None? <==> forall intent :: !Mentions(command, intent)
  {
    Reply(Classify(command))
  }

  /** The priority list the dispatcher walks, first match wins. */
  const Priority: seq<Intent> := [OpenMedicine, OpenAppointments, OpenFamily, Help]

  /** Reference definition of first-match dispatch over an arbitrary priority list. */
  function FirstMentioned(command: string, order: seq<Intent>): Intent {
    if order == [] then NoMatch
    else if Mentions(command, order[0]) then order[0]
    else FirstMentioned(command, order[1..])
  }

  /** The hand-written `if`/`else if` chain agrees with walking the priority list. */
  lemma ClassifyIsFirstMentioned(command: string)
    ensures Classify(command) == FirstMentioned(command, Priority)
  {
    var intent := Classify(command);
    var p3: seq<Intent> := [Help];
    var p2: seq<Intent> := [OpenFamily] + p3;
    var p1: seq<Intent> := [OpenAppointments] + p2;
    assert Priority == [OpenMedicine] + p1;
    assert p3[1..] == [];
    assert FirstMentioned(command, p3) == if Mentions(command, Help) then Help else NoMatch;
    assert FirstMentioned(command, p2) ==
      if Mentions(command, OpenFamily) then OpenFamily else FirstMentioned(command, p3);
    assert FirstMentioned(command, p1) ==
      if Mentions(command, OpenAppointments) then OpenAppointments else FirstMentioned(command, p2);
    assert FirstMentioned(command, Priority) ==
      if Mentions(command, OpenMedicine) then OpenMedicine else FirstMentioned(command, p1);
    if Rank(intent) >= 1 {
      assert !Mentions(command, OpenMedicine);
    }
    if Rank(intent) >= 2 {
      assert !Mentions(command, OpenAppointments);
    }
    if Rank(intent) >= 3 {
      assert !Mentions(command, OpenFamily);
    }
    if Rank(intent) >= 4 {
      assert !Mentions(command, Help);
    }
  }

  /** A transcript mentioning medicine or pills is always about medicine, whatever else it says. */
  lemma MedicineWins(command: string)
    requires Includes(ToLower(command), "medicine") || Includes(ToLower(command), "pill")
    ensures Respond(command) == Some(MedicinePhrase)
  {
  }

  /** Matching ignores ASCII case: transcripts equal up to case get the same reply. */
  lemma RespondIgnoresCase(a: string, b: string)
    requires ToLower(a) == ToLower(b)
    ensures Respond(a) == Respond(b)
  {
  }

  /** Lower-casing the transcript first changes nothing. */
  lemma RespondOfLowered(command: string)
    ensures Respond(ToLower(command)) == Respond(command)
  {
    ToLowerIdempotent(command);
    RespondIgnoresCase(ToLower(command), command);
  }

  /** A keyword spelled in any mix of cases anywhere in the transcript is recognised. */
  lemma MentionsIgnoringCase(command: string, intent: Intent, k: string)
    requires k in Keywords(intent)
    requires OccursIgnoringCase(command, k)
    ensures Mentions(command, intent)
  {
    IncludesIgnoringCase(command, k);
  }

  /** A transcript in which none of the seven keywords occurs, in any case, gets no reply. */
  lemma SilentWithoutKeywords(command: string)
    requires forall intent, k :: k in Keywords(intent) ==> !OccursIgnoringCase(command, k)
    ensures Respond(command) == None
  {
    forall intent ensures !Mentions(command, intent) {
      forall k | k in Keywords(intent) ensures !Includes(ToLower(command), k) {
        IncludesIgnoringCase(command, k);
      }
    }
  }

  /** "medicine" in any case, with any text around it (a "doctor" or a "call"
      included), opens medicine reminders. */
  lemma MedicineAnywhere(before: string, word: string, after: string)
    requires ToLower(word) == "medicine"
    ensures Respond(before + word + after) == Some(MedicinePhrase)
  {
    var command := before + word + after;
    assert command[|before|..|before| + |word|] == word;
    assert OccursAtIgnoringCase(command, "medicine", |before|);
    IncludesIgnoringCase(command, "medicine");
    MedicineWins(command);
  }
}

=== FILE: navbar.dfy ===
/** The tubelight navigation bar's selection logic: which tab is active, whether
    the layout is mobile, and whether the bar has mounted (it renders nothing
    before). Items are `{name, isActive}` records; an omitted `isActive` reads as
    false. Each item's `onClick` callback is opaque and is reported by index. */
module NavBar {
  import opened Wrappers

  datatype NavItem = NavItem(name: string, isActive: bool)

  /** Window widths below this many pixels count as mobile. */
  const MobileBreakpoint := 768

  datatype NavState = NavState(activeTab: string, isMobile: bool, mounted: bool)

  /** Index `i` holds the first item flagged active. */
  predicate FirstActive(items: seq<NavItem>, i: int) {
    0 <= i < |items| && items[i].isActive && forall j :: 0 <= j < i ==> !items[j].isActive
  }

  /** `items.find(item => item.isActive)`, as the index of the item found. */
  function FindActive(items: seq<NavItem>): (r: Option<nat>)
    ensures r.Some? ==> FirstActive(items, r.value)
    ensures r.None? ==> forall j :: 0 <= j < |items| ==> !items[j].isActive
    decreases |items|
  {
    if items == [] then
      None
    else if items[0].isActive then
      Some(0)
    else
      match FindActive(items[1..])
      case None => None
      case Some(i) => Some(i + 1)
  }

  /** There is at most one first active item. */
  lemma FirstActiveUnique(items: seq<NavItem>, i: int, j: int)
    requires FirstActive(items, i) && FirstActive(items, j)
    ensures i == j
  {
  }

  /** The `useState` initialiser: the first active item's name, unless there is no
      active item or its name is empty (falsy), in which case the first item's name.
      It reads `items[0]` in that case, which throws on an empty list. */
  function InitialTab(items: seq<NavItem>): (tab: string)
    requires |items| > 0
    ensures || (exists i :: FirstActive(items, i) && items[i].name != "" && tab == items[i].name)
            || (tab == items[0].name && forall i :: FirstActive(items, i) ==> items[i].name == "")
  {
    match FindActive(items)
    case Some(i) => if items[i].name != "" then items[i].name else items[0].name
    case None => items[0].name
  }

  /** `handleResize`: only `isMobile` changes, and it holds exactly below the breakpoint. */
  function Resize(s: NavState, width: int): (r: NavState)
    ensures r.isMobile <==> width < MobileBreakpoint
    ensures r.(isMobile := s.isMobile) == s
  {
    s.(isMobile := width < MobileBreakpoint)
  }

  /** The effect on `[items]`: with an active item, its name becomes the active tab
      (even an empty name); with none, nothing changes. */
  function SyncItems(s: NavState, items: seq<NavItem>): (r: NavState)
    ensures r.(activeTab := s.activeTab) == s
    ensures forall i :: FirstActive(items, i) ==> r.activeTab == items[i].name
    ensures (forall i :: 0 <= i < |items| ==> !items[i].isActive) ==> r == s
  {
    match FindActive(items)
    case Some(i) => s.(activeTab := items[i].name)
    case None => s
  }

  /** `activeTab === item.name`: the item is drawn highlighted, with the lamp. */
  predicate Highlighted(s: NavState, item: NavItem) {
    s.activeTab == item.name
  }

  /** A click: the active tab is set, then the item's own callback (by index) runs. */
  datatype Clicked = Clicked(state: NavState, callback: nat)

  /** Clicking item `i` highlights it, together with every item of the same name and
      no other, runs its callback, and leaves the rest of the state alone. */
  function Click(s: NavState, items: seq<NavItem>, i: nat): (r: Clicked)
    requires i < |items|
    ensures Highlighted(r.state, items[i])
    ensures forall j :: 0 <= j < |items| ==> (Highlighted(r.state, items[j]) <==> items[j].name == items[i].name)
    ensures r.state.(activeTab := s.activeTab) == s
    ensures r.callback == i
  {
    Clicked(s.(activeTab := items[i].name), i)
  }

  /** What the bar draws: nothing before mounting, then one highlight flag per item. */
  function Render(s: NavState, items: seq<NavItem>): (flags: Option<seq<bool>>)
    ensures flags.None? <==> !s.mounted
    ensures flags.Some? ==> |flags.value| == |items|
    ensures flags.Some? ==> forall j :: 0 <= j < |items| ==> (flags.value[j] <==> Highlighted(s, items[j]))
  {
    if !s.mounted then None
    else Some(seq(|items|, j requires 0 <= j < |items| => items[j].name == s.activeTab))
  }

  /** Items that share a name are always highlighted together. */
  lemma SameNameSameHighlight(s: NavState, items: seq<NavItem>, j: nat, k: nat)
    requires s.mounted && j < |items| && k < |items| && items[j].name == items[k].name
    ensures Render(s, items).value[j] == Render(s, items).value[k]
  {
  }

  /** Mounting: the first render's state, then the effects in declaration order
      (resize, items, mounted). Because the items effect also runs on mount, an
      active item with an empty name wins over the `||` fallback. */
  function Mount(items: seq<NavItem>, width: int): (s: NavState)
    requires |items| > 0
    ensures s.mounted
    ensures s.isMobile <==> width < MobileBreakpoint
    ensures || (exists i :: FirstActive(items, i) && s.activeTab == items[i].name)
            || (s.activeTab == items[0].name && forall i :: 0 <= i < |items| ==> !items[i].isActive)
  {
    var first := NavState(InitialTab(items), false, false);
    SyncItems(Resize(first, width), items).(mounted := true)
  }

  /** The `||` fallback in the initialiser is overwritten on mount: when the active
      item is named "", the initial tab is the first item's name, yet the mounted tab is "". */
  lemma FallbackOverwrittenOnMount()
    ensures var items := [NavItem("Home", false), NavItem("", true)];
            InitialTab(items) == "Home" && Mount(items, 1024).activeTab == ""
  {
  }

  /** The mounted bar: its current items and state. */
  datatype Bar = Bar(items: seq<NavItem>, state: NavState)

  datatype NavEvent =
    | Resized(width: int)                 // a window resize event
    | ItemsChanged(items: seq<NavItem>)   // the parent re-renders with a new items array
    | ClickItem(index: nat)               // the button of the item at this index is clicked

  /** Every render evaluates `items[0].name` when there is no active item or the
      first active item's name is empty, which throws on an empty list: the parent
      must never pass one. */
  predicate Valid(e: NavEvent) {
    e.ItemsChanged? ==> |e.items| > 0
  }

  /** One event on the bar. Before mounting nothing is drawn, so there is no button
      to click; a click on an index with no button does nothing either. */
  function Step(b: Bar, e: NavEvent): (r: Bar)
    requires |b.items| > 0 && Valid(e)
    ensures |r.items| > 0
    ensures r.state.mounted == b.state.mounted
    ensures r.state.isMobile != b.state.isMobile ==> e.Resized?
    ensures r.state.activeTab != b.state.activeTab ==> e.ItemsChanged? || (e.ClickItem? && b.state.mounted)
  {
    match e
    case Resized(width) => Bar(b.items, Resize(b.state, width))
    case ItemsChanged(items) => Bar(items, SyncItems(b.state, items))
    case ClickItem(i) =>
      if b.state.mounted && i < |b.items| then Bar(b.items, Click(b.state, b.items, i).state) else b
  }

  function Run(b: Bar, events: seq<NavEvent>): Bar
    requires |b.items| > 0
    requires forall i :: 0 <= i < |events| ==> Valid(events[i])
    decreases |events|
  {
    if events == [] then b else Run(Step(b, events[0]), events[1..])
  }

  /** `mounted` only ever goes from false to true: once mounted, the bar stays mounted
      and keeps a non-empty item list through any run of events. */
  lemma {:induction false} MountedForever(b: Bar, events: seq<NavEvent>)
    requires |b.items| > 0 && b.state.mounted
    requires forall i :: 0 <= i < |events| ==> Valid(events[i])
    ensures Run(b, events).state.mounted
    ensures Render(Run(b, events).state, Run(b, events).items).Some?
    decreases |events|
  {
    if events != [] {
      MountedForever(Step(b, events[0]), events[1..]);
    }
  }

  /** Resizes never move the selection. */
  lemma {:induction false} ResizesKeepSelection(b: Bar, events: seq<NavEvent>)
    requires |b.items| > 0
    requires forall i :: 0 <= i < |events| ==> events[i].Resized?
    ensures Run(b, events).state.activeTab == b.state.activeTab
    ensures Run(b, events).items == b.items
    decreases |events|
  {
    if events != [] {
      ResizesKeepSelection(Step(b, events[0]), events[1..]);
    }
  }
}

=== FILE: text.dfy ===
/** The two string operations the command dispatcher uses: lower-casing
    (`String.prototype.toLowerCase`, over ASCII letters) and substring search
    (`String.prototype.includes`). */
module Text {

  predicate IsUpperAscii(c: char) {
    'A' <= c <= 'Z'
  }

  /** True when the text has no ASCII upper-case letter. */
  predicate IsLowerText(s: string) {
    forall i :: 0 <= i < |s| ==> !IsUpperAscii(s[i])
  }

  /** Lower-cases one character: an ASCII capital becomes the same small letter,
      anything else is kept. */
  function LowerChar(c: char): (d: char)
    ensures !IsUpperAscii(d)
    ensures !IsUpperAscii(c) ==> d == c
    ensures IsUpperAscii(c) ==> 'a' <= d <= 'z' && d as int - 'a' as int == c as int - 'A' as int
  {
    if IsUpperAscii(c) then (c as int + 32) as char else c
  }

  /** `toLowerCase`, restricted to ASCII letters. */
  function ToLower(s: string): (r: string)
    ensures |r| == |s|
    ensures forall i :: 0 <= i < |s| ==> r[i] == LowerChar(s[i])
    ensures IsLowerText(r)
  {
    if s == [] then [] else [LowerChar(s[0])] + ToLower(s[1..])
  }

  /** Lower-casing is idempotent. */
  lemma ToLowerIdempotent(s: string)
    ensures ToLower(ToLower(s)) == ToLower(s)
  {
  }

  /** Text that is already lower-case is left unchanged. */
  lemma LowerTextIsFixed(s: string)
    requires IsLowerText(s)
    ensures ToLower(s) == s
  {
  }

  /** Lower-casing commutes with taking a slice. */
  lemma ToLowerSlice(s: string, i: int, j: int)
    requires 0 <= i <= j <= |s|
    ensures ToLower(s)[i..j] == ToLower(s[i..j])
  {
    var a := ToLower(s)[i..j];
    var b := ToLower(s[i..j]);
    SamePointwise(a, b, s[i..j]);
  }

  /** Two texts that both lower-case `s` character by character are equal. */
  lemma SamePointwise(a: string, b: string, s: string)
    requires |a| == |b| == |s|
    requires forall k :: 0 <= k < |s| ==> a[k] == LowerChar(s[k])
    requires forall k :: 0 <= k < |s| ==> b[k] == LowerChar(s[k])
    ensures a == b
  {
  }

  /** `pat` appears in `s` starting at index `i`. */
  ghost predicate OccursAt(s: string, pat: string, i: int) {
    0 <= i && i + |pat| <= |s| && s[i..i + |pat|] == pat
  }

  /** `pat` appears somewhere in `s`. */
  ghost predicate Occurs(s: string, pat: string) {
    exists i :: OccursAt(s, pat, i)
  }

  /** The stretch of `s` starting at index `i` spells `pat` once lower-cased. */
  ghost predicate OccursAtIgnoringCase(s: string, pat: string, i: int) {
    0 <= i && i + |pat| <= |s| && ToLower(s[i..i + |pat|]) == pat
  }

  /** Some stretch of `s` spells `pat` once lower-cased. */
  ghost predicate OccursIgnoringCase(s: string, pat: string) {
    exists i :: OccursAtIgnoringCase(s, pat, i)
  }

  /** When `pat` does not start at index 0, its occurrences in `s` are those in `s[1..]`. */
  lemma OccursShift(s: string, pat: string)
    requires |s| > 0
    requires !OccursAt(s, pat, 0)
    ensures Occurs(s, pat) <==> Occurs(s[1..], pat)
  {
    if Occurs(s, pat) {
      var i :| OccursAt(s, pat, i);
      assert i >= 1;
      assert s[1..][i - 1..i - 1 + |pat|] == s[i..i + |pat|];
      assert OccursAt(s[1..], pat, i - 1);
    }
    if Occurs(s[1..], pat) {
      var i :| OccursAt(s[1..], pat, i);
      assert s[1..][i..i + |pat|] == s[i + 1..i + 1 + |pat|];
      assert OccursAt(s, pat, i + 1);
    }
  }

  /** `s.includes(pat)`: true exactly when `pat` occurs in `s` (the empty pattern occurs everywhere). */
  function Includes(s: string, pat: string): (r: bool)
    ensures r <==> Occurs(s, pat)
    decreases |s|
  {
    if |s| < |pat| then
      false
    else if s[..|pat|] == pat then
      assert OccursAt(s, pat, 0);
      true
    else
      OccursShift(s, pat);
      Includes(s[1..], pat)
  }

  /** Searching the lower-cased text for a lower-case pattern finds exactly the
      case-insensitive occurrences of the pattern. */
  lemma IncludesIgnoringCase(s: string, pat: string)
    ensures Includes(ToLower(s), pat) <==> OccursIgnoringCase(s, pat)
  {
    var t := ToLower(s);
    if Includes(t, pat) {
      var i :| OccursAt(t, pat, i);
      ToLowerSlice(s, i, i + |pat|);
      assert OccursAtIgnoringCase(s, pat, i);
    }
    if OccursIgnoringCase(s, pat) {
      var i :| OccursAtIgnoringCase(s, pat, i);
      ToLowerSlice(s, i, i + |pat|);
      assert OccursAt(t, pat, i);
    }
  }
}

=== FILE: voice.dfy ===
/** The voice assistant component as a state machine. Its React state is the
    listening flag and the last final transcript; the `enabled` prop and the
    browser's capabilities (a recognition constructor, a speech synthesiser) are
    plain booleans; the recognizer object is a record of its settings and of
    whether `start()` was called on it. Every handler is one atomic transition,
    and the effect on `[isListening, enabled]` runs whenever either changes. */
module Voice {
  import opened Wrappers
  import Dispatcher

  datatype VoiceState = VoiceState(
    enabled: bool,             // the `enabled` prop
    supported: bool,           // a recognition constructor exists (standard or webkit-prefixed)
    synthesisAvailable: bool,  // the window offers `speechSynthesis`
    isListening: bool,
    transcript: string)

  /** State on first render: not listening, empty transcript. */
  function Initial(enabled: bool, supported: bool, synthesisAvailable: bool): (s: VoiceState)
    ensures !s.isListening && s.transcript == ""
    ensures s.enabled == enabled && s.supported == supported
    ensures s.synthesisAvailable == synthesisAvailable
  {
    VoiceState(enabled, supported, synthesisAvailable, false, "")
  }

  /** The component renders its card, and so its microphone button, only when enabled. */
  predicate Rendered(s: VoiceState) {
    s.enabled
  }

  const Lang := "en-US"
  const NowListening := "Voice assistant is now listening"
  const Stopped := "Voice assistant stopped"

  /** A recognizer the effect constructed: its three settings and whether it was started. */
  datatype Recognizer = Recognizer(continuous: bool, interimResults: bool, lang: string, started: bool)

  /** The settings the effect gives every recognizer it builds. */
  predicate Configured(r: Recognizer) {
    r.continuous && r.interimResults && r.lang == Lang
  }

  /** `speak`: a phrase is uttered only when the window has a speech synthesiser. */
  function Speak(available: bool, phrase: Option<string>): (uttered: Option<string>)
    ensures uttered.Some? <==> available && phrase.Some?
    ensures uttered.Some? ==> uttered == phrase
  {
    if available then phrase else None
  }

  /** The announcement for a listening flag: what `toggleListening` says about the state it enters. */
  function Announcement(listening: bool): string {
    if listening then NowListening else Stopped
  }

  /** The component's state, the recognizer the last effect run built, if any, and
      the last started recognizer a cleanup stopped, if any. `stop()` does not detach
      `onresult`/`onerror`, and a stopped recognizer may still report audio it had
      already captured, so that recognizer can still deliver events. */
  datatype Mounted = Mounted(state: VoiceState, recognizer: Option<Recognizer>, draining: Option<Recognizer>)

  /** One effect run: the recognizer that the previous run's cleanup stopped, and the result. */
  datatype EffectRun = EffectRun(next: Mounted, stopped: Option<Recognizer>)

  /** The effect on `[isListening, enabled]`. The previous run's cleanup first stops
      the recognizer that run built; then a disabled component is forced to stop
      listening, an unsupported browser gets no recognizer, and otherwise a fresh,
      configured recognizer is built and started only if listening. */
  function RunEffect(m: Mounted): (r: EffectRun)
    ensures r.stopped == m.recognizer
    ensures r.stopped.Some? && r.stopped.value.started ==> r.next.draining == r.stopped
    ensures !(r.stopped.Some? && r.stopped.value.started) ==> r.next.draining == m.draining
    ensures r.next.state.(isListening := m.state.isListening) == m.state
    ensures r.next.state.isListening <==> m.state.enabled && m.state.isListening
    ensures r.next.recognizer.Some? <==> m.state.enabled && m.state.supported
    ensures r.next.recognizer.Some? ==> Configured(r.next.recognizer.value)
    ensures (r.next.recognizer.Some? && r.next.recognizer.value.started)
              <==> m.state.enabled && m.state.supported && m.state.isListening
  {
    var s := m.state;
    var draining := if m.recognizer.Some? && m.recognizer.value.started then m.recognizer else m.draining;
    if !s.enabled then
      EffectRun(Mounted(s.(isListening := false), None, draining), m.recognizer)
    else if !s.supported then
      EffectRun(Mounted(s, None, draining), m.recognizer)
    else
      var recognition := Recognizer(true, true, Lang, s.isListening);
      EffectRun(Mounted(s, Some(recognition), draining), m.recognizer)
  }

  /** One element of `event.results`: whether it is final and its alternatives in rank order. */
  datatype RecognitionResult = RecognitionResult(isFinal: bool, alternatives: seq<string>)

  /** Why the result handler throws: the result list is empty, or the final result has no alternative. */
  datatype HandlerFault = NoResults | NoAlternatives

  /** A handler's effect: the new state, the transcript handed to the dispatcher, the phrase uttered. */
  datatype Reaction = Reaction(state: VoiceState, dispatched: Option<string>, spoken: Option<string>)

  /** The last element of a non-empty result list. */
  function Latest(results: seq<RecognitionResult>): RecognitionResult
    requires |results| > 0
  {
    results[|results| - 1]
  }

  /** `onresult`: only the last result is looked at. A non-final one changes nothing;
      a final one's first alternative becomes the transcript and is dispatched once. */
  function OnResult(s: VoiceState, results: seq<RecognitionResult>): (r: Result<Reaction, HandlerFault>)
    ensures r.Success? <==> |results| > 0 && (!Latest(results).isFinal || |Latest(results).alternatives| > 0)
    ensures r.Success? ==> r.value.state.(transcript := s.transcript) == s
    ensures r.Success? ==> (r.value.dispatched.Some? <==> Latest(results).isFinal)
    ensures r.Success? && r.value.dispatched.None? ==> r.value.state == s && r.value.spoken.None?
    ensures r.Success? && r.value.dispatched.Some? ==>
              && r.value.dispatched.value == Latest(results).alternatives[0]
              && r.value.state.transcript == r.value.dispatched.value
              && r.value.spoken == Speak(s.synthesisAvailable, Dispatcher.Respond(r.value.dispatched.value))
  {
    if |results| == 0 then
      Failure(NoResults)
    else
      var latest := results[|results| - 1];
      if !latest.isFinal then
        Success(Reaction(s, None, None))
      else if |latest.alternatives| == 0 then
        Failure(NoAlternatives)
      else
        var heard := latest.alternatives[0];
        Success(Reaction(s.(transcript := heard), Some(heard),
                         Speak(s.synthesisAvailable, Dispatcher.Respond(heard))))
  }

  /** Results before the last one never influence the handler. */
  lemma OnlyLatestResultCounts(s: VoiceState, earlier: seq<RecognitionResult>,
                               other: seq<RecognitionResult>, latest: RecognitionResult)
    ensures OnResult(s, earlier + [latest]) == OnResult(s, other + [latest])
  {
  }

  /** `onerror`: listening stops; nothing else changes. */
  function OnError(s: VoiceState): (r: VoiceState)
    ensures !r.isListening
    ensures r.(isListening := s.isListening) == s
  {
    s.(isListening := false)
  }

  /** `toggleListening`: the flag flips and the state it flips to is announced.
      It does not look at `supported`, so it flips even without a recognizer. */
  function Toggle(s: VoiceState): (r: Reaction)
    ensures r.state.isListening != s.isListening
    ensures r.state.(isListening := s.isListening) == s
    ensures r.dispatched.None?
    ensures r.spoken == Speak(s.synthesisAvailable, Some(Announcement(r.state.isListening)))
  {
    var next := s.(isListening := !s.isListening);
    if !s.isListening then
      Reaction(next, None, Speak(s.synthesisAvailable, Some(NowListening)))
    else
      Reaction(next, None, Speak(s.synthesisAvailable, Some(Stopped)))
  }

  /** Two toggles give back the original state, transcript included, and say
      "now listening" exactly when the first toggle started from not listening. */
  lemma ToggleTwice(s: VoiceState)
    ensures Toggle(Toggle(s).state).state == s
    ensures s.synthesisAvailable ==>
              (Toggle(s).spoken == Some(NowListening) <==> !s.isListening)
              && (Toggle(s).spoken == Some(Stopped) <==> s.isListening)
  {
  }

  /** The effect's dependencies are unchanged between two states. */
  predicate SameDeps(a: VoiceState, b: VoiceState) {
    a.isListening == b.isListening && a.enabled == b.enabled
  }

  /** A state on which the effect would not change its own dependencies. */
  predicate Quiescent(s: VoiceState) {
    s.enabled || !s.isListening
  }

  /** The effect re-runs after a render whose dependencies changed; if the run
      itself changes them (a disabled component that was listening), React runs it
      once more, and that second run changes nothing further. After a re-run the
      recognizer is the one the effect builds for the new state, and a recognizer
      that was capturing has been stopped and may still deliver events; otherwise
      the earlier stopped recognizer stays the one that may. */
  function Settle(before: VoiceState, m: Mounted): (r: Mounted)
    ensures r.state.(isListening := m.state.isListening) == m.state
    ensures SameDeps(before, m.state) ==> r == m
    ensures !SameDeps(before, m.state) ==> Quiescent(r.state) && SameDeps(r.state, RunEffect(r).next.state)
    ensures !SameDeps(before, m.state) ==>
              && (r.recognizer.Some? <==> m.state.enabled && m.state.supported)
              && (r.recognizer.Some? ==> Configured(r.recognizer.value))
              && (Capturing(r) <==> m.state.enabled && m.state.supported && m.state.isListening)
              && (Capturing(m) ==> r.draining == m.recognizer)
              && (!Capturing(m) ==> r.draining == m.draining)
  {
    if SameDeps(before, m.state) then
      m
    else
      var first := RunEffect(m).next;
      if SameDeps(m.state, first.state) then first else RunEffect(first).next
  }

  /** The relation the controller keeps between its state and its recognizer:
      a disabled component is not listening, a recognizer exists exactly when the
      component is enabled in a supporting browser, and it is configured and
      started exactly when listening; a stopped recognizer that may still deliver
      events was built in a supporting browser with the usual settings. */
  predicate WellFormed(m: Mounted) {
    && (!m.state.enabled ==> !m.state.isListening)
    && (m.recognizer.Some? <==> m.state.enabled && m.state.supported)
    && (m.recognizer.Some? ==>
          Configured(m.recognizer.value) && m.recognizer.value.started == m.state.isListening)
    && (m.draining.Some? ==> m.state.supported && Configured(m.draining.value))
  }

  /** Mounting: the first render, then the effect's first run. */
  function Mount(enabled: bool, supported: bool, synthesisAvailable: bool): (m: Mounted)
    ensures WellFormed(m)
    ensures m.state == Initial(enabled, supported, synthesisAvailable)
    ensures m.recognizer.Some? ==> !m.recognizer.value.started
    ensures m.draining.None?
  {
    RunEffect(Mounted(Initial(enabled, supported, synthesisAvailable), None, None)).next
  }

  /** A started recognizer exists, so the browser can deliver its result and error events. */
  predicate Capturing(m: Mounted) {
    m.recognizer.Some? && m.recognizer.value.started
  }

  /** The events the mounted component reacts to. */
  datatype VoiceEvent =
    | SetEnabled(on: bool)                       // the parent re-renders with a new `enabled`
    | PressMic                                   // the microphone button is clicked
    | Heard(results: seq<RecognitionResult>)     // the recognizer's result event
    | RecognitionFailed                          // the recognizer's error event
    | LateHeard(results: seq<RecognitionResult>) // a result event from the stopped recognizer
    | LateFailed                                 // an error event from the stopped recognizer

  /** What one event did: the new component, and what was dispatched and uttered. */
  datatype Outcome = Outcome(next: Mounted, dispatched: Option<string>, spoken: Option<string>)

  /** One event, followed by the effect re-runs it causes. The button exists only
      while rendered. Recognizer events come from the started recognizer, or late
      from the last stopped one, whose handlers are still attached and run exactly
      as before. A handler that throws leaves everything as it was. */
  function Step(m: Mounted, e: VoiceEvent): (o: Outcome)
    ensures WellFormed(m) ==> WellFormed(o.next)
    ensures o.dispatched.Some? ==> (e.Heard? && Capturing(m)) || (e.LateHeard? && m.draining.Some?)
    ensures WellFormed(m) && e.SetEnabled? && !e.on ==>
              !o.next.state.isListening && o.next.recognizer.None?
    ensures !e.Heard? && !e.LateHeard? ==> o.next.state.transcript == m.state.transcript
    ensures WellFormed(m) && !m.state.supported ==> o.next.recognizer.None? && o.next.draining.None?
  {
    match e
    case SetEnabled(on) =>
      Outcome(Settle(m.state, m.(state := m.state.(enabled := on))), None, None)
    case PressMic =>
      if !Rendered(m.state) then
        Outcome(m, None, None)
      else
        var r := Toggle(m.state);
        Outcome(Settle(m.state, m.(state := r.state)), None, r.spoken)
    case Heard(results) =>
      if !Capturing(m) then Outcome(m, None, None) else Deliver(m, results)
    case RecognitionFailed =>
      if !Capturing(m) then Outcome(m, None, None) else Fail(m)
    case LateHeard(results) =>
      if m.draining.None? then Outcome(m, None, None) else Deliver(m, results)
    case LateFailed =>
      if m.draining.None? then Outcome(m, None, None) else Fail(m)
  }

  /** Runs `onresult`; a transcript change does not touch the effect's dependencies. */
  function Deliver(m: Mounted, results: seq<RecognitionResult>): (o: Outcome)
    ensures o.next.recognizer == m.recognizer && o.next.draining == m.draining
  {
    match OnResult(m.state, results)
    case Failure(_) => Outcome(m, None, None)
    case Success(r) => Outcome(m.(state := r.state), r.dispatched, r.spoken)
  }

  /** Runs `onerror`, then the effect re-runs it causes. */
  function Fail(m: Mounted): (o: Outcome)
    ensures !o.next.state.isListening && o.dispatched.None? && o.spoken.None?
  {
    Outcome(Settle(m.state, m.(state := OnError(m.state))), None, None)
  }

  function OptionToSeq<T>(o: Option<T>): seq<T> {
    if o.Some? then [o.value] else []
  }

  /** A run of events: the final component, every dispatched transcript and every uttered phrase, in order. */
  datatype Trace = Trace(next: Mounted, dispatched: seq<string>, spoken: seq<string>)

  function Run(m: Mounted, events: seq<VoiceEvent>): (t: Trace)
    decreases |events|
  {
    if events == [] then
      Trace(m, [], [])
    else
      var o := Step(m, events[0]);
      var rest := Run(o.next, events[1..]);
      Trace(rest.next, OptionToSeq(o.dispatched) + rest.dispatched, OptionToSeq(o.spoken) + rest.spoken)
  }

  /** The controller's invariant holds after any sequence of events; in
      particular a recognizer is started only when enabled, supported and listening. */
  lemma {:induction false} RunPreservesWellFormed(m: Mounted, events: seq<VoiceEvent>)
    requires WellFormed(m)
    ensures WellFormed(Run(m, events).next)
    ensures Capturing(Run(m, events).next) ==>
              var s := Run(m, events).next.state; s.enabled && s.supported && s.isListening
    decreases |events|
  {
    if events != [] {
      RunPreservesWellFormed(Step(m, events[0]).next, events[1..]);
    }
  }

  /** Without a recognition constructor no recognizer is ever built, nothing is
      ever dispatched and the transcript never changes. */
  lemma {:induction false} UnsupportedNeverRecognizes(m: Mounted, events: seq<VoiceEvent>)
    requires WellFormed(m) && !m.state.supported
    ensures Run(m, events).next.recognizer.None?
    ensures Run(m, events).dispatched == []
    ensures Run(m, events).next.state.transcript == m.state.transcript
    decreases |events|
  {
    if events != [] {
      var o := Step(m, events[0]);
      assert o.next.recognizer.None? && o.dispatched.None?;
      assert o.next.state.transcript == m.state.transcript;
      UnsupportedNeverRecognizes(o.next, events[1..]);
    }
  }

  /** Result events whose last result is not final change nothing and dispatch nothing. */
  lemma {:induction false} InterimResultsAreIgnored(m: Mounted, events: seq<VoiceEvent>)
    requires forall i :: 0 <= i < |events| ==>
               events[i].Heard? && |events[i].results| > 0 && !Latest(events[i].results).isFinal
    ensures Run(m, events) == Trace(m, [], [])
    decreases |events|
  {
    if events != [] {
      assert Step(m, events[0]).next == m;
      InterimResultsAreIgnored(m, events[1..]);
    }
  }

  /** Interim results followed by one final result: exactly one dispatch, of the
      final result's first alternative, which also becomes the transcript. */
  lemma SingleFinalDispatchedOnce(m: Mounted, interim: seq<VoiceEvent>, results: seq<RecognitionResult>)
    requires Capturing(m)
    requires forall i :: 0 <= i < |interim| ==>
               interim[i].Heard? && |interim[i].results| > 0 && !Latest(interim[i].results).isFinal
    requires |results| > 0 && Latest(results).isFinal && |Latest(results).alternatives| > 0
    ensures Run(m, interim + [Heard(results)]).dispatched == [Latest(results).alternatives[0]]
    ensures Run(m, interim + [Heard(results)]).next.state.transcript == Latest(results).alternatives[0]
  {
    RunAppend(m, interim, [Heard(results)]);
    InterimResultsAreIgnored(m, interim);
    var last := Run(m, [Heard(results)]);
    assert last.dispatched == OptionToSeq(Step(m, Heard(results)).dispatched);
  }

  /** Running two event sequences one after the other is running their concatenation. */
  lemma {:induction false} RunAppend(m: Mounted, a: seq<VoiceEvent>, b: seq<VoiceEvent>)
    ensures Run(m, a + b).next == Run(Run(m, a).next, b).next
    ensures Run(m, a + b).dispatched == Run(m, a).dispatched + Run(Run(m, a).next, b).dispatched
    ensures Run(m, a + b).spoken == Run(m, a).spoken + Run(Run(m, a).next, b).spoken
    decreases |a|
  {
    if a != [] {
      assert (a + b)[0] == a[0];
      assert (a + b)[1..] == a[1..] + b;
      RunAppend(Step(m, a[0]).next, a[1..], b);
    } else {
      assert a + b == b;
    }
  }

  /** Pressing the microphone twice, with no recognition event in between, gives
      back the same state (transcript included), starts and stops a recognizer
      when one can be built, and announces first the new and then the old state. */
  lemma PressTwiceRestores(m: Mounted)
    requires WellFormed(m) && m.state.enabled
    ensures Run(m, [PressMic, PressMic]).next.state == m.state
    ensures WellFormed(Run(m, [PressMic]).next)
    ensures Capturing(Run(m, [PressMic]).next) <==> m.state.supported && !m.state.isListening
    ensures m.state.synthesisAvailable ==>
              Run(m, [PressMic, PressMic]).spoken
                == [Announcement(!m.state.isListening), Announcement(m.state.isListening)]
  {
  }

  /** `toggleListening` does not keep "listening implies supported": in a browser
      without a recognition constructor the button still switches to listening,
      although no recognizer exists. */
  lemma ListeningWithoutRecognizer(m: Mounted)
    requires WellFormed(m) && m.state.enabled && !m.state.supported && !m.state.isListening
    ensures Step(m, PressMic).next.state.isListening
    ensures Step(m, PressMic).next.recognizer.None?
  {
  }

  /** Stopping does not silence a recognizer: after the microphone is switched off,
      or after an error, a late final result from the stopped recognizer still
      becomes the transcript and is dispatched, although nothing is capturing. */
  lemma LateResultStillDispatched(m: Mounted, results: seq<RecognitionResult>)
    requires WellFormed(m) && Capturing(m)
    requires |results| > 0 && Latest(results).isFinal && |Latest(results).alternatives| > 0
    ensures var off := Step(m, PressMic).next;
            && !off.state.isListening && !Capturing(off)
            && Step(off, LateHeard(results)).dispatched == Some(Latest(results).alternatives[0])
            && Step(off, LateHeard(results)).next.state.transcript == Latest(results).alternatives[0]
    ensures var failed := Step(m, RecognitionFailed).next;
            && !failed.state.isListening && !Capturing(failed)
            && Step(failed, LateHeard(results)).dispatched == Some(Latest(results).alternatives[0])
            && Step(failed, LateHeard(results)).next.state.transcript == Latest(results).alternatives[0]
  {
  }

  /** A late error from the stopped recognizer ends a session that was started after it. */
  lemma LateErrorStopsNewSession(m: Mounted)
    requires WellFormed(m) && Capturing(m)
    ensures var restarted := Step(Step(m, PressMic).next, PressMic).next;
            && Capturing(restarted)
            && !Step(restarted, LateFailed).next.state.isListening
            && !Capturing(Step(restarted, LateFailed).next)
  {
  }
}

=== FILE: wrappers.dfy ===
/** Option and Result datatypes shared by the voice assistant and navigation bar models. */
module Wrappers {

  /** An optional value: the absent case stands for JavaScript's `undefined`/"nothing happened". */
  datatype Option<+T> = None | Some(value: T)

  /** The outcome of a handler that may throw: `Failure` carries the reason it threw. */
  datatype Result<+R, +E> = Success(value: R) | Failure(error: E)
}
